=== FILE: README.md ===
# gestor-tareas: the task and category views as pure reducers

The application is a personal task manager: a signed-in user keeps tasks
(`tareas`) and categories (`categorias`) in a hosted backend and sees the tasks
on a board with one column per category. Almost all of it is glue between React
views and the backend. This project models the logic that the two manager views
keep locally:

- the **task view** (`TaskManager`): fetching, adding, saving, deleting and
  locally editing tasks; the per-card edit toggle (`TaskCard`); and the **board**,
  which groups tasks into a "Sin categoría" column plus one column per category;
- the **category view** (`CategoryManager`): loading, adding, saving, deleting and
  renaming categories, the single edit cursor `editingId`, and the
  loading/session render guard.

Each view's state is an immutable record, and each operation is a pure function
of that state. The backend's answer is a parameter `Response<T>` (`Ok(value)` or
`Err`), and no assumption is made about the row it returns. Each operation also
returns the request it would send, as `Option<Call>`, so "nothing is sent" is a
provable statement.

Files (one module each): `outcome.dfy` (Option, Response), `js_text.dfy`
(`String.prototype.trim`), `lists.dfy` (`filter`, `find`, and a `map` that
rewrites only the selected elements), `records.dfy` (rows, session, truthiness),
`task_manager.dfy`, `board.dfy`, `category_manager.dfy`.

Places where the code behaves differently from what one might expect. The model
follows the code in each case:

- A task whose `categoria_id` is set but names no listed category, for example
  after that category was deleted, is shown in **no** column. It is not shown as
  uncategorized, so the board is not a partition of the task list
  (`Board.BoardCountsAllButOrphans`, `Board.DeletedCategoryHidesTasks`). Whether a
  task fetched after the deletion still carries the deleted id depends on the
  backend's foreign-key rule for `categoria_id`, which is not visible here; the
  model covers the local list, where the row keeps it until the next task fetch.
- The category view checks `loading` before the session. Loading ends only after
  a fetch, and a fetch needs a truthy user id. So without a user the view shows the
  loading message forever and never "No autorizado"
  (`CategoryManager.NoUserStaysLoading`).
- Local lists are sorted only by the fetch. Added rows are appended at the end
  and saved rows stay where they were.
- The category view has a single edit cursor, not one flag per row.
- `addTask` trims the title only to test it and inserts the title as typed.
  `addCategory` inserts the trimmed name. `saveTask` and `saveCategory` re-check
  nothing.

## Model

| member | source | states |
|---|---|---|
| JsText.IsSpace | frontend/src/components/CategoryManager.jsx:41 | the characters `trim` strips; on ASCII they are exactly space, tab, line feed, vertical tab, form feed and carriage return |
| JsText.Trim | frontend/src/components/CategoryManager.jsx:41-42 | the trimmed text is empty exactly when every character is JavaScript whitespace, and otherwise starts and ends with a non-whitespace character |
| JsText.TrimStartCuts | frontend/src/components/CategoryManager.jsx:41 | stripping the start removes a blank prefix and all of it: the rest of the text does not start with whitespace |
| JsText.TrimEndCuts | frontend/src/components/CategoryManager.jsx:41 | stripping the end removes a blank suffix and all of it: the rest of the text does not end with whitespace |
| JsText.TrimIsMiddle | frontend/src/components/CategoryManager.jsx:41 | the trimmed text is the block of the input that starts after the leading whitespace, and everything cut off before and after it is whitespace |
| JsText.TrimIdempotent | frontend/src/components/CategoryManager.jsx:41 | trimming an already trimmed name changes nothing |
| JsText.TrimIgnoresPadding | frontend/src/components/TaskManager.jsx:125 | whitespace around a title does not change the result of the emptiness guard |
| Lists.Filter | frontend/src/components/TaskManager.jsx:169 | `filter` keeps exactly the accepted elements, each with its original multiplicity |
| Lists.FilterAppend | frontend/src/components/TaskManager.jsx:169 | `filter` keeps relative order: filtering a concatenation concatenates the filtered parts |
| Lists.FilterIdempotent | frontend/src/components/CategoryManager.jsx:82 | filtering twice by the same test is filtering once |
| Lists.MapWhere | frontend/src/components/TaskManager.jsx:174 | the conditional `map` keeps the length, replaces every selected element by its image and leaves every other element where it was |
| Lists.Find | frontend/src/components/TaskManager.jsx:149-150 | `find` yields nothing exactly when no element matches, and otherwise the first matching element |
| Records.OrNull | frontend/src/components/TaskManager.jsx:158 | the `or null` idiom keeps truthy values and maps every falsy value to null |
| Records.RowsOf | frontend/src/components/TaskManager.jsx:121 | the `or []` default: a payload that is present is taken as it is, even when empty, and a null payload reads as no rows |
| Records.Session.UserId | frontend/src/components/CategoryManager.jsx:7 | `session?.user?.id`: a signed-in session yields its user's id, which may itself be missing; an unresolved or absent session yields no id |
| TaskManager.FetchCategories | frontend/src/components/TaskManager.jsx:97-112 | categories are requested only for a truthy user id; success replaces the list, with a null payload read as empty; an error changes nothing |
| TaskManager.FetchTasks | frontend/src/components/TaskManager.jsx:114-122 | the same guard and outcome rule for the task list |
| TaskManager.AddTask | frontend/src/components/TaskManager.jsx:124-146 | a blank title sends nothing and changes nothing; otherwise the form is inserted as typed, an empty category becomes null and the owner is the user; success appends the returned row at the end, an error keeps the list, and the form is reset in both cases |
| TaskManager.BlankForm | frontend/src/components/TaskManager.jsx:89-95 | the starting form has an empty title, an empty description and category, an unchecked state and the current date |
| TaskManager.SecondAddSendsNothing | frontend/src/components/TaskManager.jsx:141-145 | an add that passed the guard resets the form, so an immediate second add sends nothing and changes nothing, whatever the first answer was |
| TaskManager.FieldsOf | frontend/src/components/TaskManager.jsx:153-159 | the update sends every editable field and keeps the category's truthiness, with falsy categories sent as null |
| TaskManager.SaveTask | frontend/src/components/TaskManager.jsx:148-164 | an unknown id sends nothing; otherwise the first matching row is sent without re-checking its title; success replaces exactly the rows with that id and keeps the length and all other rows; an error changes nothing |
| TaskManager.DeleteTask | frontend/src/components/TaskManager.jsx:166-170 | a delete is always sent; success removes exactly the rows with that id and keeps every other row with its multiplicity; an error changes nothing |
| TaskManager.Apply | frontend/src/components/TaskManager.jsx:174 | a field edit changes only the named field and never the id or the owner |
| TaskManager.HandleTaskChange | frontend/src/components/TaskManager.jsx:172-176 | a local edit changes only the rows with that id, keeps the length and the ids, and touches nothing else |
| TaskManager.AddThenDelete | frontend/src/components/TaskManager.jsx:139 | deleting a freshly added row restores the original list |
| TaskManager.DeleteIdempotent | frontend/src/components/TaskManager.jsx:169 | deleting the same id twice is deleting it once |
| TaskManager.DeleteKeepsOrder | frontend/src/components/TaskManager.jsx:169 | deletion keeps the surviving rows in their relative order |
| TaskManager.SaveKeepsIds | frontend/src/components/TaskManager.jsx:163 | when the returned row keeps the id, a save keeps the id sequence of the list |
| TaskManager.SaveIdempotent | frontend/src/components/TaskManager.jsx:163 | repeating a save with the same answer changes nothing further |
| TaskManager.ChangeLastWins | frontend/src/components/TaskManager.jsx:172-176 | of two edits of the same field, the second one wins |
| TaskManager.SaveSendsEdit | frontend/src/components/TaskManager.jsx:148-159 | a save made right after a local edit sends the edited value |
| TaskManager.RefetchDropsLocalEdits | frontend/src/components/TaskManager.jsx:114-122 | a successful refetch replaces the list with the fetched rows and discards unsaved local edits |
| TaskManager.ScreenFor | frontend/src/components/TaskManager.jsx:178-179 | the board is shown exactly for a signed-in session; an unresolved session shows loading and an absent one is refused |
| TaskManager.Card | frontend/src/components/TaskManager.jsx:5-80 | a card only talks about its own task; a card outside edit mode emits no edits and no saves; saving leaves edit mode at once, whatever the save's outcome; deleting leaves the flag alone |
| Board.Uncategorized | frontend/src/components/TaskManager.jsx:242-243 | the "Sin categoría" column holds exactly the tasks whose category is falsy |
| Board.Column | frontend/src/components/TaskManager.jsx:263-264 | a category's column holds exactly the tasks whose category equals its id |
| Board.Columns | frontend/src/components/TaskManager.jsx:257-264 | there is one column per listed category, in list order |
| Board.ShownIffNotOrphan | frontend/src/components/TaskManager.jsx:242-264 | a listed task is on the board exactly when it is not an orphan, that is, when its category is falsy or names a listed category |
| Board.ColumnsDisjoint | frontend/src/components/TaskManager.jsx:242-264 | with unique, non-empty category ids, no task is in two columns |
| Board.EmptyIdShowsTaskTwice | frontend/src/components/TaskManager.jsx:243 | a category with an empty id matches tasks that the uncategorized column also shows, so the non-empty requirement is needed |
| Board.AtMostOneMatch | frontend/src/components/TaskManager.jsx:264 | with unique ids at most one category column accepts a given task |
| Board.PlacedOnceUnlessOrphan | frontend/src/components/TaskManager.jsx:242-264 | with unique, non-empty ids, a task is placed in exactly one column, or in none if it is an orphan |
| Board.CardsArePlacements | frontend/src/components/TaskManager.jsx:242-264 | counting the cards column by column gives the sum over tasks of the columns each task is placed in |
| Board.BoardCountsAllButOrphans | frontend/src/components/TaskManager.jsx:242-264 | with unique, non-empty ids, the board shows as many cards as there are tasks minus orphans |
| Board.DeletedCategoryHidesTasks | frontend/src/components/TaskManager.jsx:104-112 | once the task view fetches a category list without `d`, a listed task filed under `d` is an orphan and appears in no column |
| Board.CategoryEditMovesTask | frontend/src/components/TaskManager.jsx:33 | picking a category for an uncategorized task takes it out of the "Sin categoría" column and puts it in that category's column |
| CategoryManager.InitialShowsLoading | frontend/src/components/CategoryManager.jsx:9-12 | the view starts with no rows, an empty text box, no cursor and loading set, so its first screen is the loading message whatever the session |
| CategoryManager.Load | frontend/src/components/CategoryManager.jsx:14-31 | nothing happens without a truthy user id; otherwise success replaces the list, an error keeps it, and loading ends either way |
| CategoryManager.Render | frontend/src/components/CategoryManager.jsx:33-38 | the loading guard comes before the session guard; a listed row is in edit mode exactly when its id is the cursor |
| CategoryManager.SingleCursor | frontend/src/components/CategoryManager.jsx:114 | every row in edit mode carries the cursor's id, so with unique ids at most one row is in edit mode |
| CategoryManager.AddCategory | frontend/src/components/CategoryManager.jsx:40-53 | a blank name sends nothing and changes nothing; otherwise the trimmed, non-empty name is inserted for the user; success appends the row, an error keeps the list, and the text box is cleared in both cases |
| CategoryManager.SaveCategory | frontend/src/components/CategoryManager.jsx:55-72 | an unknown id sends nothing; otherwise the first matching name is sent untrimmed; success replaces the matching rows and clears the cursor; an error changes nothing |
| CategoryManager.DeleteCategory | frontend/src/components/CategoryManager.jsx:74-85 | a delete is always sent; success removes exactly the matching rows and clears the cursor only if it was on that id; an error changes nothing |
| CategoryManager.HandleNameChange | frontend/src/components/CategoryManager.jsx:87-91 | a rename changes only the names of the matching rows and keeps every id and owner |
| CategoryManager.AddThenDeleteCategory | frontend/src/components/CategoryManager.jsx:40-85 | deleting a freshly added category restores the original list and leaves the cursor where it was |
| CategoryManager.RenameThenSaveSendsName | frontend/src/components/CategoryManager.jsx:55-63 | a save right after a rename sends the new name as typed, even when it is empty or padded |
| CategoryManager.Dispatch | frontend/src/components/CategoryManager.jsx:93-151 | only the mount effect acts while the list is not rendered, and loading never returns once it has ended; "Editar" puts the clicked row's id in the cursor, and renaming or saving a row the cursor is not on changes nothing |
| CategoryManager.EditShowsRowInEditMode | frontend/src/components/CategoryManager.jsx:114-141 | after "Editar" on a listed row, exactly the rows carrying that row's id are shown in edit mode |
| CategoryManager.NoUserStaysLoading | frontend/src/components/CategoryManager.jsx:12-38 | without a truthy user id the view stays in its initial state and shows loading, never the refusal |
| CategoryManager.DispatchKeepsCursorValid | frontend/src/components/CategoryManager.jsx:70-83 | every event except a reload leaves the cursor either off or on a listed row |
| CategoryManager.RunKeepsCursorValid | frontend/src/components/CategoryManager.jsx:11 | any sequence of events without a reload leaves the cursor either off or on a listed row |
| CategoryManager.LifecycleKeepsCursorValid | frontend/src/components/CategoryManager.jsx:14-31 | from the initial state, the mount load followed by any user events never leaves the cursor on a row that is not listed |

## Left out

- Backend calls (`supabase.from(...)`, `supabase.auth.*`) are an external service. Each answer is a parameter, the request is returned as data, and error messages, which are only logged, are dropped.
- A successful answer whose payload is `null` is not represented. Inserts and updates are assumed to return a row. A `null` row would make the render throw, because the board filters (frontend/src/components/TaskManager.jsx:243, 264), `saveTask` and `deleteTask` (TaskManager.jsx:149, 163, 169), `handleTaskChange` (TaskManager.jsx:174) and the category view (CategoryManager.jsx:68, 82, 89, 114) read fields of rows without optional chaining.
- Ids are modelled as text. The case of numeric ids compared with `===` against the text value of a `<select>` is not modelled.
- The default date `new Date().toISOString()` depends on the clock, so it becomes the parameter `today`.
- Async interleaving: each reducer applies its answer to the state it started from. Double submits and races between the two fetches are not modelled.
- The creation form's field setters are plain assignments. They are represented by building a `TaskForm` value. Typing in the category text box is `Type` in `CategoryManager.Dispatch`.
- `CategoryManager.Run` keeps one session for a whole run. Session changes come from the auth provider and are not modelled.
- JSX rendering, styling and console logging are not modelled.
- Text is a Dafny `string`, a sequence of Unicode scalar values, while JavaScript strings are UTF-16 code units. The two agree for `trim` and `===` on every string without lone surrogates, which a Dafny string cannot hold.
- The authentication context, the login and register forms, routing, the dashboard, the navbar and the bootstrap module are not part of this model. They are wrappers over the auth service and the router.
- TaskManager.Card: the `editing` flag belongs to one mounted `TaskCard`. Picking another category in edit mode moves the task to another column's `<div>` (`Board.CategoryEditMovesTask`), so React mounts a fresh card whose flag is false, and the card leaves edit mode without a save. The model follows one card instance and does not model remounting.

=== FILE: board.dfy ===
/** The task board (TaskManager.jsx:242-264): one "Sin categoría" column for the
    tasks whose `categoria_id` is falsy, then one column per listed category holding
    the tasks whose `categoria_id` is that category's id. The columns are derived
    from the two lists on every render. */
module Board {
  import opened Outcome
  import opened Records
  import opened Lists
  import TaskManager

  /** The task files under category `c` (`t.categoria_id === c.id`). */
  predicate InColumn(t: Task, c: Category)
  {
    t.categoriaId == Some(c.id)
  }

  /** The task's category is set but names no listed category. */
  predicate IsOrphan(t: Task, cats: seq<Category>)
  {
    Truthy(t.categoriaId) && forall i :: 0 <= i < |cats| ==> !InColumn(t, cats[i])
  }

  /** The "Sin categoría" column: the tasks with a falsy category, in list order. */
  function Uncategorized(tasks: seq<Task>): (r: seq<Task>)
    ensures forall t :: t in r <==> t in tasks && !Truthy(t.categoriaId)
  {
    Filter(tasks, (t: Task) => !Truthy(t.categoriaId))
  }

  /** The column of category `c`: the tasks filed under it, in list order. */
  function Column(tasks: seq<Task>, c: Category): (r: seq<Task>)
    ensures forall t :: t in r <==> t in tasks && t.categoriaId == Some(c.id)
  {
    Filter(tasks, (t: Task) => InColumn(t, c))
  }

  /** The category columns, one per listed category, in the categories' order. */
  function Columns(tasks: seq<Task>, cats: seq<Category>): (r: seq<seq<Task>>)
    ensures |r| == |cats|
    ensures forall i :: 0 <= i < |cats| ==> r[i] == Column(tasks, cats[i])
  {
    seq(|cats|, i requires 0 <= i < |cats| => Column(tasks, cats[i]))
  }

  /** The task appears in some column of the board. */
  predicate Shown(t: Task, tasks: seq<Task>, cats: seq<Category>)
  {
    t in Uncategorized(tasks) || exists col :: col in Columns(tasks, cats) && t in col
  }

  /** A listed task is on the board exactly when it is not an orphan: a set category
      that matches no listed category hides the task from every column. */
  lemma ShownIffNotOrphan(t: Task, tasks: seq<Task>, cats: seq<Category>)
    requires t in tasks
    ensures Shown(t, tasks, cats) <==> !IsOrphan(t, cats)
  {
    var cols := Columns(tasks, cats);
    if !IsOrphan(t, cats) && Truthy(t.categoriaId) {
      var i :| 0 <= i < |cats| && InColumn(t, cats[i]);
      assert cols[i] in cols && t in cols[i];
    }
    if IsOrphan(t, cats) {
      forall col | col in cols ensures t !in col {
        var i :| 0 <= i < |cols| && cols[i] == col;
      }
    }
  }

  /** With unique, truthy category ids no task sits in two columns: an uncategorized
      task is in no category column, and two different category columns share no task. */
  lemma ColumnsDisjoint(t: Task, tasks: seq<Task>, cats: seq<Category>)
    requires UniqueIds(cats) && TruthyIds(cats)
    ensures t in Uncategorized(tasks) ==> forall i :: 0 <= i < |cats| ==> t !in Column(tasks, cats[i])
    ensures forall i, j :: 0 <= i < j < |cats| ==> !(t in Column(tasks, cats[i]) && t in Column(tasks, cats[j]))
  {
  }

  /** Why truthy ids are needed: a category whose id is the empty string matches the
      very tasks the "Sin categoría" column shows, so such a task appears twice. */
  lemma EmptyIdShowsTaskTwice()
    ensures var t := Task("t1", "x", "", "", false, Some(""), None);
      var c := Category("", "c", None);
      t in Uncategorized([t]) && t in Column([t], c)
  {
    var t := Task("t1", "x", "", "", false, Some(""), None);
    assert [t][0] == t;
  }

  /** How many columns file task `t`: one for "Sin categoría" if its category is
      falsy, plus one per listed category it names. */
  function Placements(t: Task, cats: seq<Category>): nat
  {
    (if Truthy(t.categoriaId) then 0 else 1) + |Filter(cats, (c: Category) => InColumn(t, c))|
  }

  /** Number of cards in a sequence of columns: none exactly when every column is empty. */
  function SumSizes(cols: seq<seq<Task>>): (n: nat)
    ensures n == 0 <==> forall i :: 0 <= i < |cols| ==> cols[i] == []
    decreases |cols|
  {
    if cols == [] then 0 else |cols[0]| + SumSizes(cols[1..])
  }

  /** Number of task cards in the category columns. */
  function CardsInColumns(tasks: seq<Task>, cats: seq<Category>): nat
  {
    SumSizes(Columns(tasks, cats))
  }

  /** Number of task cards on the whole board. */
  function CardsOnBoard(tasks: seq<Task>, cats: seq<Category>): nat
  {
    |Uncategorized(tasks)| + CardsInColumns(tasks, cats)
  }

  /** Sum of the placements of all tasks. */
  function TotalPlacements(tasks: seq<Task>, cats: seq<Category>): nat
    decreases |tasks|
  {
    if tasks == [] then 0 else Placements(tasks[0], cats) + TotalPlacements(tasks[1..], cats)
  }

  /** Adding a task in front adds one card to each category column that files it. */
  lemma {:induction false} CardsInColumnsCons(t: Task, ts: seq<Task>, cats: seq<Category>)
    ensures CardsInColumns([t] + ts, cats) == |Filter(cats, (c: Category) => InColumn(t, c))| + CardsInColumns(ts, cats)
    decreases |cats|
  {
    if cats != [] {
      assert ([t] + ts)[1..] == ts;
      assert cats == [cats[0]] + cats[1..];
      assert Columns([t] + ts, cats)[1..] == Columns([t] + ts, cats[1..]);
      assert Columns(ts, cats)[1..] == Columns(ts, cats[1..]);
      CardsInColumnsCons(t, ts, cats[1..]);
    }
  }

  /** Counting cards column by column equals counting each task's placements. */
  lemma {:induction false} CardsArePlacements(tasks: seq<Task>, cats: seq<Category>)
    ensures CardsOnBoard(tasks, cats) == TotalPlacements(tasks, cats)
    decreases |tasks|
  {
    if tasks == [] {
      assert forall i :: 0 <= i < |cats| ==> Columns(tasks, cats)[i] == [];
    } else {
      var t, ts := tasks[0], tasks[1..];
      assert tasks == [t] + ts;
      CardsInColumnsCons(t, ts, cats);
      CardsArePlacements(ts, cats);
    }
  }

  /** With unique ids, at most one category matches a given reference. */
  lemma {:induction false} AtMostOneMatch(t: Task, cats: seq<Category>)
    requires UniqueIds(cats)
    ensures |Filter(cats, (c: Category) => InColumn(t, c))| <= 1
    decreases |cats|
  {
    var hit := (c: Category) => InColumn(t, c);
    if cats != [] {
      var rest := cats[1..];
      if hit(cats[0]) {
        assert forall i :: 0 <= i < |rest| ==> !hit(rest[i]) by {
          forall i | 0 <= i < |rest| ensures !hit(rest[i]) {
            assert rest[i] == cats[i + 1];
          }
        }
        assert Filter(rest, hit) == [];
      } else {
        AtMostOneMatch(t, rest);
      }
    }
  }

  /** With unique, truthy ids a task is placed once, or not at all if it is an orphan. */
  lemma {:induction false} PlacedOnceUnlessOrphan(t: Task, cats: seq<Category>)
    requires UniqueIds(cats) && TruthyIds(cats)
    ensures Placements(t, cats) == if IsOrphan(t, cats) then 0 else 1
  {
    var hit := (c: Category) => InColumn(t, c);
    var m := Filter(cats, hit);
    AtMostOneMatch(t, cats);
    if Truthy(t.categoriaId) {
      if !IsOrphan(t, cats) {
        var i :| 0 <= i < |cats| && InColumn(t, cats[i]);
        assert cats[i] in m;
      }
    }
  }

  /** The board is not a total partition of the task list: with unique, truthy
      category ids it shows every task exactly once except the orphans, which it
      does not show at all. */
  lemma {:induction false} BoardCountsAllButOrphans(tasks: seq<Task>, cats: seq<Category>)
    requires UniqueIds(cats) && TruthyIds(cats)
    ensures CardsOnBoard(tasks, cats) + |Filter(tasks, (t: Task) => IsOrphan(t, cats))| == |tasks|
  {
    CardsArePlacements(tasks, cats);
    OrphansAndPlacements(tasks, cats);
  }

  /** With unique, non-empty ids, placements and orphans together account for every
      task once. */
  lemma {:induction false} OrphansAndPlacements(tasks: seq<Task>, cats: seq<Category>)
    requires UniqueIds(cats) && TruthyIds(cats)
    ensures TotalPlacements(tasks, cats) + |Filter(tasks, (t: Task) => IsOrphan(t, cats))| == |tasks|
    decreases |tasks|
  {
    if tasks != [] {
      PlacedOnceUnlessOrphan(tasks[0], cats);
      OrphansAndPlacements(tasks[1..], cats);
    }
  }

  /** Once the task view fetches a category list without `d` (as after `d` was
      deleted in the category view), a task still filed under `d` is an orphan and
      appears in no column. */
  lemma DeletedCategoryHidesTasks(v: TaskManager.TaskView, user: Option<Id>, cats: seq<Category>, d: Id, t: Task)
    requires Truthy(user) && t in v.tasks && t.categoriaId == Some(d) && d != ""
    requires forall c :: c in cats ==> c.id != d
    ensures var w := TaskManager.FetchCategories(v, user, Ok(Some(cats))).view;
      IsOrphan(t, w.categories) && !Shown(t, w.tasks, w.categories)
  {
    var w := TaskManager.FetchCategories(v, user, Ok(Some(cats))).view;
    forall i | 0 <= i < |cats| ensures !InColumn(t, cats[i]) {
      assert cats[i] in cats;
    }
    ShownIffNotOrphan(t, w.tasks, w.categories);
  }

  /** Choosing a category on the card of an uncategorized task moves the task out of
      "Sin categoría" into that category's column, before anything is saved. */
  lemma CategoryEditMovesTask(v: TaskManager.TaskView, k: nat, c: Category)
    requires k < |v.tasks| && !Truthy(v.tasks[k].categoriaId) && c.id != ""
    ensures v.tasks[k] in Uncategorized(v.tasks)
    ensures var w := TaskManager.HandleTaskChange(v, v.tasks[k].id, TaskManager.SetCategoria(c.id));
      w.tasks[k] !in Uncategorized(w.tasks) && w.tasks[k] in Column(w.tasks, c)
  {
    assert v.tasks[k] in v.tasks;
    var w := TaskManager.HandleTaskChange(v, v.tasks[k].id, TaskManager.SetCategoria(c.id));
    assert w.tasks[k] in w.tasks;
  }
}

=== FILE: category_manager.dfy ===
/** The category view's local state (CategoryManager.jsx): the list, the "new
    category" text box, the single edit cursor `editingId` and the `loading` flag,
    with the reducers that update them after each backend answer. */
module CategoryManager {
  import opened Outcome
  import opened Records
  import opened Lists
  import opened JsText

  /** Everything the category view keeps between renders. */
  datatype CategoryView = CategoryView(categories: seq<Category>, newCat: string, editingId: Option<Id>, loading: bool)

  /** The state on mount: no rows, empty text box, no row in edit mode, loading. */
  const Initial: CategoryView := CategoryView([], "", None, true)

  /** A request the view sends to the backend. */
  datatype Call =
    | Select(owner: Id)
    | Insert(nombre: string, userId: Option<Id>)
    | Update(id: Id, nombre: string)
    | Delete(id: Id)

  /** The state after one operation, and the request it sent (`None`: it sent nothing). */
  datatype Step = Step(view: CategoryView, call: Option<Call>)

  /** The `load` effect: nothing happens without a truthy user id. Otherwise the
      user's categories are requested; a success replaces the list, an error keeps
      it, and loading ends either way. */
  function Load(v: CategoryView, user: Option<Id>, resp: Response<Option<seq<Category>>>): (r: Step)
    ensures r.call.Some? <==> Truthy(user)
    ensures r.call.None? ==> r.view == v
    ensures r.call.Some? ==> r.call.value == Select(user.value) && !r.view.loading
    ensures resp.Err? ==> r.view.categories == v.categories
    ensures r.call.Some? && resp.Ok? ==> r.view.categories == RowsOf(resp.value)
    ensures r.view.newCat == v.newCat && r.view.editingId == v.editingId
  {
    if !Truthy(user) then Step(v, None)
    else
      var categories := match resp
        case Ok(data) => RowsOf(data)
        case Err => v.categories;
      Step(v.(categories := categories, loading := false), Some(Select(user.value)))
  }

  /** What the category view renders. */
  datatype Screen = Loading | Unauthorized | Listing(editing: seq<bool>)

  /** The render guards, loading first: while loading the view shows the loading
      message whatever the session; otherwise a session-less view is refused; otherwise
      every row is listed, in edit mode exactly when its id is the cursor. */
  function Render(v: CategoryView, session: Session): (s: Screen)
    ensures v.loading ==> s == Loading
    ensures !v.loading && !session.Present? ==> s == Unauthorized
    ensures !v.loading && session.Present? ==> s.Listing?
    ensures s.Listing? ==> |s.editing| == |v.categories|
    ensures s.Listing? ==> forall i :: 0 <= i < |v.categories| ==> (s.editing[i] <==> v.editingId == Some(v.categories[i].id))
  {
    if v.loading then Loading
    else if !session.Present? then Unauthorized
    else Listing(seq(|v.categories|, i requires 0 <= i < |v.categories| => v.editingId == Some(v.categories[i].id)))
  }

  /** One edit cursor: every row in edit mode carries the same id, so with unique ids
      at most one row is in edit mode. */
  lemma SingleCursor(v: CategoryView, session: Session)
    requires Render(v, session).Listing?
    ensures var e := Render(v, session).editing;
      forall i, j :: 0 <= i < |e| && 0 <= j < |e| && e[i] && e[j] ==> v.categories[i].id == v.categories[j].id
    ensures var e := Render(v, session).editing;
      UniqueIds(v.categories) ==> forall i, j :: 0 <= i < |e| && 0 <= j < |e| && e[i] && e[j] ==> i == j
  {
  }

  /** `addCategory`: a name that is blank once trimmed sends nothing and changes
      nothing. Otherwise the trimmed name is inserted for `user`, a success appends
      the returned row, an error keeps the list, and the text box is cleared in
      both cases. */
  function AddCategory(v: CategoryView, user: Option<Id>, resp: Response<Category>): (r: Step)
    ensures r.call.Some? <==> !IsBlank(v.newCat)
    ensures r.call.None? ==> r.view == v
    ensures r.call.Some? ==> r.call.value == Insert(Trim(v.newCat), user)
    ensures r.call.Some? ==> r.call.value.nombre != ""
    ensures r.call.Some? ==> r.view.newCat == "" && r.view.editingId == v.editingId && r.view.loading == v.loading
    ensures r.call.Some? && resp.Ok? ==> r.view.categories == v.categories + [resp.value]
    ensures resp.Err? ==> r.view.categories == v.categories
  {
    var name := Trim(v.newCat);
    if name == "" then Step(v, None)
    else
      var categories := match resp
        case Ok(data) => v.categories + [data]
        case Err => v.categories;
      Step(v.(categories := categories, newCat := ""), Some(Insert(name, user)))
  }

  /** `saveCategory`: an id with no row sends nothing. Otherwise the first row's name
      is sent as it stands (neither trimmed nor checked for emptiness); a success
      replaces every row with that id by the returned row and leaves edit mode, an
      error changes nothing (the row stays in edit mode). */
  function SaveCategory(v: CategoryView, id: Id, resp: Response<Category>): (r: Step)
    ensures r.call.Some? <==> Listed(v.categories, id)
    ensures r.call.None? || resp.Err? ==> r.view == v
    ensures r.call.Some? ==> exists k :: (
      && 0 <= k < |v.categories| && v.categories[k].id == id
      && (forall j :: 0 <= j < k ==> v.categories[j].id != id)
      && r.call.value == Update(id, v.categories[k].nombre))
    ensures r.call.Some? && resp.Ok? ==> r.view.editingId == None
    ensures r.view.newCat == v.newCat && r.view.loading == v.loading
    ensures |r.view.categories| == |v.categories|
    ensures forall i :: 0 <= i < |v.categories| && v.categories[i].id != id ==> r.view.categories[i] == v.categories[i]
    ensures r.call.Some? && resp.Ok? ==> forall i :: 0 <= i < |v.categories| && v.categories[i].id == id ==> r.view.categories[i] == resp.value
  {
    match Find(v.categories, (c: Category) => c.id == id)
    case None => Step(v, None)
    case Some(c) =>
      match resp
      case Ok(data) =>
        Step(v.(categories := MapWhere(v.categories, (c: Category) => c.id == id, _ => data), editingId := None),
             Some(Update(id, c.nombre)))
      case Err => Step(v, Some(Update(id, c.nombre)))
  }

  /** `deleteCategory`: always asks the backend to delete; a success removes exactly
      the rows with that id and clears the cursor only if it was on that id; an error
      changes nothing. */
  function DeleteCategory(v: CategoryView, id: Id, resp: Response<()>): (r: Step)
    ensures r.call == Some(Delete(id))
    ensures resp.Err? ==> r.view == v
    ensures r.view.newCat == v.newCat && r.view.loading == v.loading
    ensures resp.Ok? ==> forall c :: c in r.view.categories <==> c in v.categories && c.id != id
    ensures resp.Ok? ==> forall c: Category :: c.id != id ==> multiset(r.view.categories)[c] == multiset(v.categories)[c]
    ensures resp.Ok? ==> r.view.editingId == if v.editingId == Some(id) then None else v.editingId
  {
    match resp
    case Ok(_) =>
      var editing := if v.editingId == Some(id) then None else v.editingId;
      Step(v.(categories := Filter(v.categories, (c: Category) => c.id != id), editingId := editing), Some(Delete(id)))
    case Err => Step(v, Some(Delete(id)))
  }

  /** `handleNameChange`: a purely local rename of the rows with that id; nothing
      else changes, and every row keeps its id and owner. */
  function HandleNameChange(v: CategoryView, id: Id, name: string): (r: CategoryView)
    ensures r.newCat == v.newCat && r.editingId == v.editingId && r.loading == v.loading
    ensures |r.categories| == |v.categories|
    ensures forall i :: 0 <= i < |v.categories| ==>
      r.categories[i].id == v.categories[i].id && r.categories[i].userId == v.categories[i].userId
    ensures forall i :: 0 <= i < |v.categories| ==>
      r.categories[i].nombre == if v.categories[i].id == id then name else v.categories[i].nombre
  {
    v.(categories := MapWhere(v.categories, (c: Category) => c.id == id, (c: Category) => c.(nombre := name)))
  }

  /** A successful add followed by a successful delete of the returned row's (fresh)
      id gives the original list back, with the cursor where it was. */
  lemma AddThenDeleteCategory(v: CategoryView, user: Option<Id>, row: Category)
    requires !IsBlank(v.newCat) && !Listed(v.categories, row.id)
    requires v.editingId != Some(row.id)
    ensures var w := DeleteCategory(AddCategory(v, user, Ok(row)).view, row.id, Ok(())).view;
      w.categories == v.categories && w.editingId == v.editingId
  {
    var keep := (c: Category) => c.id != row.id;
    FilterAppend(v.categories, [row], keep);
    FilterAll(v.categories, keep);
  }

  /** A save right after a rename sends the new name exactly as typed, even when it
      is empty or padded with whitespace. */
  lemma RenameThenSaveSendsName(v: CategoryView, id: Id, name: string, resp: Response<Category>)
    requires Listed(v.categories, id)
    ensures SaveCategory(HandleNameChange(v, id, name), id, resp).call == Some(Update(id, name))
  {
    var w := HandleNameChange(v, id, name);
    var k :| 0 <= k < |v.categories| && v.categories[k].id == id;
    assert w.categories[k].id == id;
  }

  /** The cursor is off, or on the id of a listed row. */
  predicate CursorValid(v: CategoryView)
  {
    v.editingId.None? || Listed(v.categories, v.editingId.value)
  }

  /** What reaches the view: the mount effect, typing in the text box, and clicks
      (and typing) on the `row`-th listed row. */
  datatype Event =
    | Mount(loaded: Response<Option<seq<Category>>>)
    | Type(text: string)
    | ClickAdd(added: Response<Category>)
    | ClickEdit(row: nat)
    | Rename(row: nat, name: string)
    | ClickSave(row: nat, saved: Response<Category>)
    | ClickDelete(row: nat, deleted: Response<()>)

  /** The view's reaction to one event under a fixed session. Nothing but the mount
      effect can happen unless the list is rendered; a row's "Editar" button exists
      only outside edit mode, its "Guardar" button and its name field only inside it,
      its "Eliminar" button always. Loading never comes back once it has ended.
      "Editar" puts the row's id in the cursor; renaming and saving act only on the
      row the cursor is on. */
  function Dispatch(v: CategoryView, session: Session, ev: Event): (r: CategoryView)
    ensures !v.loading ==> !r.loading
    ensures !ev.Mount? && !Render(v, session).Listing? ==> r == v
    ensures ev.Mount? ==> r == Load(v, session.UserId(), ev.loaded).view
    ensures Render(v, session).Listing? && ev.ClickEdit? && ev.row < |v.categories|
      ==> r == v.(editingId := Some(v.categories[ev.row].id))
    ensures (&& Render(v, session).Listing? && (ev.Rename? || ev.ClickSave?)
             && !(ev.row < |v.categories| && v.editingId == Some(v.categories[ev.row].id)))
      ==> r == v
  {
    if ev.Mount? then Load(v, session.UserId(), ev.loaded).view
    else if !Render(v, session).Listing? then v
    else
      var cats := v.categories;
      match ev
      case Type(text) => v.(newCat := text)
      case ClickAdd(resp) => AddCategory(v, session.UserId(), resp).view
      case ClickEdit(i) =>
        if i < |cats| && v.editingId != Some(cats[i].id) then v.(editingId := Some(cats[i].id)) else v
      case Rename(i, name) =>
        if i < |cats| && v.editingId == Some(cats[i].id) then HandleNameChange(v, cats[i].id, name) else v
      case ClickSave(i, resp) =>
        if i < |cats| && v.editingId == Some(cats[i].id) then SaveCategory(v, cats[i].id, resp).view else v
      case ClickDelete(i, resp) =>
        if i < |cats| then DeleteCategory(v, cats[i].id, resp).view else v
  }

  /** The view after a sequence of events. */
  function Run(v: CategoryView, session: Session, evs: seq<Event>): CategoryView
    decreases |evs|
  {
    if evs == [] then v else Run(Dispatch(v, session, evs[0]), session, evs[1..])
  }

  /** Without a truthy user id nothing is ever fetched, so loading never ends: the
      view stays in its initial state and shows the loading message, never the
      "No autorizado" refusal, even for a signed-out session. */
  lemma {:induction false} NoUserStaysLoading(session: Session, evs: seq<Event>)
    requires !Truthy(session.UserId())
    ensures Run(Initial, session, evs) == Initial
    ensures Render(Run(Initial, session, evs), session) == Loading
    decreases |evs|
  {
    if evs != [] {
      assert Dispatch(Initial, session, evs[0]) == Initial;
      NoUserStaysLoading(session, evs[1..]);
    }
  }

  /** After "Editar" on a listed row, exactly the rows sharing its id are shown in
      edit mode: the name field and "Guardar" appear there and nowhere else. */
  lemma EditShowsRowInEditMode(v: CategoryView, session: Session, i: nat)
    requires Render(v, session).Listing? && i < |v.categories|
    ensures var s := Render(Dispatch(v, session, ClickEdit(i)), session);
      && s.Listing? && |s.editing| == |v.categories|
      && forall j :: 0 <= j < |v.categories| ==> (s.editing[j] <==> v.categories[j].id == v.categories[i].id)
  {
  }

  /** The view is born empty, with no cursor and loading set, so its first screen is
      the loading message whatever the session says. */
  lemma InitialShowsLoading(session: Session)
    ensures Initial.categories == [] && Initial.newCat == "" && Initial.editingId.None?
    ensures CursorValid(Initial) && Render(Initial, session) == Loading
  {
  }

  /** Every event except a (re)load keeps the cursor on a listed row or off. */
  lemma {:induction false} DispatchKeepsCursorValid(v: CategoryView, session: Session, ev: Event)
    requires CursorValid(v) && !ev.Mount?
    ensures CursorValid(Dispatch(v, session, ev))
  {
    if Render(v, session).Listing? {
      var r := Dispatch(v, session, ev);
      match ev {
        case Type(_) =>
        case ClickEdit(i) =>
          if i < |v.categories| {
            assert r.categories[i].id == r.editingId.value;
          }
        case ClickAdd(resp) =>
          if v.editingId.Some? {
            var k :| 0 <= k < |v.categories| && v.categories[k].id == v.editingId.value;
            assert r.categories[k] == v.categories[k];
          }
        case Rename(i, name) =>
          if v.editingId.Some? {
            var k :| 0 <= k < |v.categories| && v.categories[k].id == v.editingId.value;
            assert r.categories[k].id == v.categories[k].id;
          }
        case ClickSave(i, resp) =>
        case ClickDelete(i, resp) =>
          if resp.Ok? && r.editingId.Some? {
            var k :| 0 <= k < |v.categories| && v.categories[k].id == v.editingId.value;
            assert v.categories[k] in r.categories;
            var j :| 0 <= j < |r.categories| && r.categories[j] == v.categories[k];
          }
      }
    }
  }

  /** The view's life: it starts in `Initial`, the mount effect loads once, and user
      events follow; the cursor stays off or on a listed row throughout. */
  lemma LifecycleKeepsCursorValid(session: Session, loaded: Response<Option<seq<Category>>>, evs: seq<Event>)
    requires forall i :: 0 <= i < |evs| ==> !evs[i].Mount?
    ensures CursorValid(Run(Initial, session, [Mount(loaded)] + evs))
  {
    assert ([Mount(loaded)] + evs)[1..] == evs;
    RunKeepsCursorValid(Dispatch(Initial, session, Mount(loaded)), session, evs);
  }

  /** So does every run of events that does not reload the list. */
  lemma {:induction false} RunKeepsCursorValid(v: CategoryView, session: Session, evs: seq<Event>)
    requires CursorValid(v)
    requires forall i :: 0 <= i < |evs| ==> !evs[i].Mount?
    ensures CursorValid(Run(v, session, evs))
    decreases |evs|
  {
    if evs != [] {
      DispatchKeepsCursorValid(v, session, evs[0]);
      RunKeepsCursorValid(Dispatch(v, session, evs[0]), session, evs[1..]);
    }
  }
}

=== FILE: js_text.dfy ===
/** JavaScript string trimming, as used by the views' "is this field empty?" guards. */
module JsText {

  /** The characters `String.prototype.trim` strips: ECMAScript WhiteSpace
      (tab, vertical tab, form feed, space, no-break space, byte order mark and
      every Unicode space separator) and LineTerminator (LF, CR, LS, PS). */
  function IsSpace(c: char): (b: bool)
    ensures c < '\U{0080}' ==> (b <==> c == ' ' || '\t' <= c <= '\r')
  {
    || c == '\t' || c == '\U{000B}' || c == '\U{000C}' || c == ' '
    || c == '\U{00A0}' || c == '\U{FEFF}' || c == '\U{1680}'
    || ('\U{2000}' <= c <= '\U{200A}')
    || c == '\U{202F}' || c == '\U{205F}' || c == '\U{3000}'
    || c == '\n' || c == '\r' || c == '\U{2028}' || c == '\U{2029}'
  }

  /** Every character of `s` is stripped by trimming (the empty string included). */
  predicate IsBlank(s: string)
  {
    forall i :: 0 <= i < |s| ==> IsSpace(s[i])
  }

  /** Drops leading whitespace (`TrimStartCuts` states what it cuts). */
  function TrimStart(s: string): (r: string)
    ensures |r| <= |s|
  {
    if |s| > 0 && IsSpace(s[0]) then TrimStart(s[1..]) else s
  }

  /** Drops trailing whitespace (`TrimEndCuts` states what it cuts). */
  function TrimEnd(s: string): (r: string)
    ensures |r| <= |s|
  {
    if |s| > 0 && IsSpace(s[|s| - 1]) then TrimEnd(s[..|s| - 1]) else s
  }

  /** `t` is what remains of `s` after a blank prefix is cut off. */
  ghost predicate PrefixCut(s: string, t: string)
  {
    |t| <= |s| && t == s[|s| - |t|..] && IsBlank(s[..|s| - |t|])
  }

  /** `r` is what remains of `t` after a blank suffix is cut off. */
  ghost predicate SuffixCut(t: string, r: string)
  {
    |r| <= |t| && r == t[..|r|] && IsBlank(t[|r|..])
  }

  /** `TrimStart` cuts a blank prefix, and all of it: what remains does not start
      with whitespace. */
  lemma {:induction false} TrimStartCuts(s: string)
    ensures PrefixCut(s, TrimStart(s))
    ensures TrimStart(s) == [] || !IsSpace(TrimStart(s)[0])
    decreases |s|
  {
    if |s| > 0 && IsSpace(s[0]) {
      var t := TrimStart(s[1..]);
      TrimStartCuts(s[1..]);
      var n := |s| - |t|;
      assert s[1..][|s| - 1 - |t|..] == s[n..];
      var p := s[..n];
      assert forall i :: 1 <= i < |p| ==> p[i] == s[1..][..n - 1][i - 1];
    }
  }

  /** `TrimEnd` cuts a blank suffix, and all of it: what remains does not end
      with whitespace. */
  lemma {:induction false} TrimEndCuts(s: string)
    ensures SuffixCut(s, TrimEnd(s))
    ensures TrimEnd(s) == [] || !IsSpace(TrimEnd(s)[|TrimEnd(s)| - 1])
    decreases |s|
  {
    if |s| > 0 && IsSpace(s[|s| - 1]) {
      var u := s[..|s| - 1];
      var r := TrimEnd(u);
      TrimEndCuts(u);
      assert u[..|r|] == s[..|r|];
      var q := s[|r|..];
      assert forall i :: 0 <= i < |q| - 1 ==> q[i] == u[|r|..][i];
    }
  }

  /** `s.trim()`: `s` with the whitespace at both ends stripped. It is empty exactly
      when `s` is blank, and otherwise starts and ends with a character trimming keeps. */
  function Trim(s: string): (r: string)
    ensures |r| <= |s|
    ensures r == [] <==> IsBlank(s)
    ensures r != [] ==> !IsSpace(r[0]) && !IsSpace(r[|r| - 1])
  {
    TrimFacts(s);
    TrimEnd(TrimStart(s))
  }

  /** The facts `Trim` promises, from those of its two halves. */
  lemma TrimFacts(s: string)
    ensures var r := TrimEnd(TrimStart(s));
      && |r| <= |s|
      && (r == [] <==> IsBlank(s))
      && (r != [] ==> !IsSpace(r[0]) && !IsSpace(r[|r| - 1]))
  {
    var a := TrimStart(s);
    var r := TrimEnd(a);
    TrimStartCuts(s);
    TrimEndCuts(a);
    var n := |s| - |a|;
    if a != [] {
      assert s[n] == a[0];
      assert !IsBlank(s);
    } else {
      assert s[..n] == s;
    }
    if r != [] {
      assert a[0] == r[0];
    }
  }

  /** `r` is the block of `s` that starts at `a`, and what lies around it is blank. */
  ghost predicate MiddleOf(r: string, s: string, a: int)
  {
    && 0 <= a && a + |r| <= |s|
    && r == s[a..a + |r|]
    && IsBlank(s[..a]) && IsBlank(s[a + |r|..])
  }

  /** What `Trim` keeps is the middle block of `s`, starting after the leading
      whitespace: cutting it out leaves a blank prefix and a blank suffix. */
  lemma TrimIsMiddle(s: string)
    ensures MiddleOf(Trim(s), s, |s| - |TrimStart(s)|)
  {
    TrimIsMiddleOf(s, TrimStart(s), Trim(s));
  }

  /** `TrimIsMiddle` with the trimmed forms passed in, so the proof works on plain
      variables. */
  lemma TrimIsMiddleOf(s: string, t: string, r: string)
    requires t == TrimStart(s) && r == Trim(s)
    ensures MiddleOf(r, s, |s| - |t|)
  {
    TrimUnfolds(s);
    TrimStartCuts(s);
    TrimEndCuts(t);
    MiddleOfCuts(s, t, r);
  }

  /** `Trim` strips the start first and then the end. */
  lemma TrimUnfolds(s: string)
    ensures Trim(s) == TrimEnd(TrimStart(s))
  {
  }

  /** Cutting a blank prefix and then a blank suffix leaves a middle block. */
  lemma MiddleOfCuts(s: string, t: string, r: string)
    requires PrefixCut(s, t) && SuffixCut(t, r)
    ensures MiddleOf(r, s, |s| - |t|)
  {
    var a := |s| - |t|;
    assert s[a + |r|..] == t[|r|..];
  }

  /** Trimming twice is trimming once. */
  lemma {:induction false} TrimIdempotent(s: string)
    ensures Trim(Trim(s)) == Trim(s)
  {
    var r := Trim(s);
    assert TrimStart(r) == r;
    assert TrimEnd(r) == r;
  }

  /** Whitespace added around a string does not change its trimmed form. */
  lemma {:induction false} TrimIgnoresPadding(pre: string, s: string, post: string)
    requires IsBlank(pre) && IsBlank(post)
    ensures Trim(pre + s + post) == Trim(s)
  {
    TrimStartSkipsBlank(pre, s + post);
    assert pre + s + post == pre + (s + post);
    TrimStartOfPadded(s, post);
    TrimEndSkipsBlank(TrimStart(s), post);
  }

  /** Stripping the start skips a blank prefix entirely. */
  lemma {:induction false} TrimStartSkipsBlank(pre: string, s: string)
    requires IsBlank(pre)
    ensures TrimStart(pre + s) == TrimStart(s)
    decreases |pre|
  {
    if pre != [] {
      assert (pre + s)[0] == pre[0] && IsSpace(pre[0]);
      assert (pre + s)[1..] == pre[1..] + s;
      TrimStartSkipsBlank(pre[1..], s);
      assert TrimStart(pre + s) == TrimStart(pre[1..] + s);
    } else {
      assert pre + s == s;
    }
  }

  /** Stripping the start of padded text strips the text and keeps the padding,
      unless the text is blank, when only the padding is stripped. */
  lemma {:induction false} TrimStartOfPadded(s: string, post: string)
    requires IsBlank(post)
    ensures TrimStart(s + post) == TrimStart(s) + post || (IsBlank(s) && TrimStart(s + post) == TrimStart(post))
    decreases |s|
  {
    if s == [] {
      assert s + post == post;
    } else if IsSpace(s[0]) {
      assert (s + post)[1..] == s[1..] + post;
      TrimStartOfPadded(s[1..], post);
    } else {
      assert (s + post)[0] == s[0];
    }
  }

  /** Stripping the end removes a blank suffix and then what the text itself ends with. */
  lemma {:induction false} TrimEndSkipsBlank(s: string, post: string)
    requires IsBlank(post)
    ensures TrimEnd(s + post) == TrimEnd(s)
    decreases |post|
  {
    if post == [] {
      assert s + post == s;
    } else {
      assert (s + post)[..|s + post| - 1] == s + post[..|post| - 1];
      TrimEndSkipsBlank(s, post[..|post| - 1]);
    }
  }
}

=== FILE: lists.dfy ===
/** The three array operations the views build their reducers from:
    `Array.prototype.filter`, `Array.prototype.find` and a `map` that rewrites
    only the elements a test selects. */
module Lists {
  import opened Outcome

  /** `s.filter(keep)`: the elements of `s` that `keep` accepts, each as often as
      it occurs in `s`, in the order of `s` (see `FilterAppend`). */
  function Filter<T(!new)>(s: seq<T>, keep: T -> bool): (r: seq<T>)
    ensures |r| <= |s|
    ensures forall x :: x in r <==> x in s && keep(x)
    ensures forall x :: multiset(r)[x] == if keep(x) then multiset(s)[x] else 0
    decreases |s|
  {
    if s == [] then []
    else
      assert s == [s[0]] + s[1..];
      if keep(s[0]) then [s[0]] + Filter(s[1..], keep) else Filter(s[1..], keep)
  }

  /** Filtering keeps relative order: it distributes over concatenation. */
  lemma {:induction false} FilterAppend<T(!new)>(a: seq<T>, b: seq<T>, keep: T -> bool)
    ensures Filter(a + b, keep) == Filter(a, keep) + Filter(b, keep)
    decreases |a|
  {
    if a == [] {
      assert a + b == b;
    } else {
      assert (a + b)[0] == a[0];
      assert (a + b)[1..] == a[1..] + b;
      FilterAppend(a[1..], b, keep);
    }
  }

  /** A filter that accepts everything changes nothing. */
  lemma {:induction false} FilterAll<T(!new)>(s: seq<T>, keep: T -> bool)
    requires forall i :: 0 <= i < |s| ==> keep(s[i])
    ensures Filter(s, keep) == s
    decreases |s|
  {
    if s != [] {
      FilterAll(s[1..], keep);
      assert [s[0]] + s[1..] == s;
    }
  }

  /** Filtering by the same test twice is filtering once. */
  lemma {:induction false} FilterIdempotent<T(!new)>(s: seq<T>, keep: T -> bool)
    ensures Filter(Filter(s, keep), keep) == Filter(s, keep)
  {
    var r := Filter(s, keep);
    forall i | 0 <= i < |r|
      ensures keep(r[i])
    {
      assert r[i] in r;
    }
    FilterAll(r, keep);
  }

  /** `s.map(x => hit(x) ? f(x) : x)`: rewrites exactly the selected elements, in place. */
  function MapWhere<T>(s: seq<T>, hit: T -> bool, f: T -> T): (r: seq<T>)
    ensures |r| == |s|
    ensures forall i :: 0 <= i < |s| && !hit(s[i]) ==> r[i] == s[i]
    ensures forall i :: 0 <= i < |s| && hit(s[i]) ==> r[i] == f(s[i])
  {
    seq(|s|, i requires 0 <= i < |s| => if hit(s[i]) then f(s[i]) else s[i])
  }

  /** `s.find(p)`: the first element `p` accepts, or `undefined` when there is none. */
  function Find<T>(s: seq<T>, p: T -> bool): (r: Option<T>)
    ensures r.None? <==> forall i :: 0 <= i < |s| ==> !p(s[i])
    ensures r.Some? ==> exists i :: 0 <= i < |s| && s[i] == r.value && p(s[i]) && forall j :: 0 <= j < i ==> !p(s[j])
    decreases |s|
  {
    if s == [] then None
    else if p(s[0]) then Some(s[0])
    else
      var r := Find(s[1..], p);
      assert r.Some? ==> exists i :: 1 <= i < |s| && s[i] == r.value && p(s[i]) && forall j :: 0 <= j < i ==> !p(s[j]) by {
        if r.Some? {
          var k :| 0 <= k < |s| - 1 && s[1..][k] == r.value && p(s[1..][k]) && forall j :: 0 <= j < k ==> !p(s[1..][j]);
          assert s[k + 1] == r.value;
          assert forall j :: 1 <= j < k + 1 ==> !p(s[j]) by {
            forall j | 1 <= j < k + 1 ensures !p(s[j]) { assert s[j] == s[1..][j - 1]; }
          }
        }
      }
      r
  }
}

=== FILE: outcome.dfy ===
/** Small value-or-absence and success-or-error wrappers shared by the whole model. */
module Outcome {

  /** A JavaScript value that may be `null`/`undefined` (`None`) or present (`Some`). */
  datatype Option<+T> = None | Some(value: T)

  /** What the hosted backend answered to one request: the payload it returned, or an
      error (whose message is only logged by the views, so it carries nothing here). */
  datatype Response<+T> = Ok(value: T) | Err
}

=== FILE: records.dfy ===
/** The rows of the two backend tables (`tareas`, `categorias`) as the views hold
    them, the session the views read their user id from, and JavaScript truthiness
    for the nullable text values the views test. */
module Records {
  import opened Outcome

  /** Row ids and user ids are opaque text (a `<select>` hands category ids back as text). */
  type Id = string

  /** A `tareas` row. `categoriaId` is `null` (`None`) or the id of a category. */
  datatype Task = Task(
    id: Id,
    titulo: string,
    descripcion: string,
    fecha: string,
    estado: bool,
    categoriaId: Option<Id>,
    userId: Option<Id>)

  /** A `categorias` row. */
  datatype Category = Category(id: Id, nombre: string, userId: Option<Id>)

  /** JavaScript truthiness of a nullable string: present and non-empty. */
  predicate Truthy(v: Option<string>)
  {
    v.Some? && v.value != ""
  }

  /** `v || null` for a nullable string: falsy values collapse to `null`. */
  function OrNull(v: Option<string>): (r: Option<string>)
    ensures Truthy(v) ==> r == v
    ensures !Truthy(v) ==> r == None
    ensures Truthy(r) <==> Truthy(v)
  {
    if Truthy(v) then v else None
  }

  /** `data || []`: a successful select with no payload yields no rows. */
  function RowsOf<T>(data: Option<seq<T>>): (r: seq<T>)
    ensures data.Some? ==> r == data.value
    ensures data.None? ==> r == []
  {
    if data.Some? then data.value else []
  }

  /** The authentication session as the provider exposes it: `undefined` before
      the first answer, `null` when nobody is signed in, or a user's session. */
  datatype Session = Unresolved | Absent | Present(userId: Option<Id>)
  {
    /** `session?.user?.id` */
    function UserId(): (r: Option<Id>)
      ensures Present? ==> r == userId
      ensures !Present? ==> r.None?
    {
      if Present? then userId else None
    }
  }

  /** No two rows share an id. */
  predicate UniqueIds(cats: seq<Category>)
  {
    forall i, j :: 0 <= i < j < |cats| ==> cats[i].id != cats[j].id
  }

  /** Every category id is truthy (the backend assigns non-empty ids). */
  predicate TruthyIds(cats: seq<Category>)
  {
    forall i :: 0 <= i < |cats| ==> cats[i].id != ""
  }

  /** The id `id` names some row of `cats`. */
  predicate Listed(cats: seq<Category>, id: Id)
  {
    exists i :: 0 <= i < |cats| && cats[i].id == id
  }
}

=== FILE: task_manager.dfy ===
/** The task view's local state and the reducers that update it after each
    backend answer (TaskManager.jsx), plus the per-card edit toggle (`TaskCard`). */
module TaskManager {
  import opened Outcome
  import opened Records
  import opened Lists
  import opened JsText

  /** The creation form. `categoriaId` is the `<select>`'s text value, `""` for "no category". */
  datatype TaskForm = TaskForm(titulo: string, descripcion: string, fecha: string, categoriaId: string, estado: bool)

  /** The form as it starts and as it is reset; `today` stands for the clock's current date. */
  function BlankForm(today: string): (f: TaskForm)
    ensures f.titulo == "" && f.descripcion == "" && f.categoriaId == "" && !f.estado
    ensures f.fecha == today
  {
    TaskForm("", "", today, "", false)
  }

  /** Everything the task view keeps between renders. */
  datatype TaskView = TaskView(tasks: seq<Task>, categories: seq<Category>, form: TaskForm)

  /** The payload inserted into `tareas`. */
  datatype NewTask = NewTask(titulo: string, descripcion: string, fecha: string, estado: bool, categoriaId: Option<Id>, userId: Option<Id>)

  /** The columns an update of one `tareas` row writes. */
  datatype TaskFields = TaskFields(titulo: string, descripcion: string, fecha: string, estado: bool, categoriaId: Option<Id>)

  /** A request the view sends to the backend. */
  datatype Call =
    | SelectCategories(owner: Id)
    | SelectTasks(owner: Id)
    | InsertTask(row: NewTask)
    | UpdateTask(id: Id, fields: TaskFields)
    | DeleteTask(id: Id)

  /** The state after one operation, and the request it sent (`None`: it sent nothing). */
  datatype Step = Step(view: TaskView, call: Option<Call>)

  /** One field edit made on a card: the field `handleTaskChange` is given, with its new value. */
  datatype Edit = SetTitulo(text: string) | SetDescripcion(text: string) | SetFecha(text: string) | SetCategoria(text: string) | SetEstado(flag: bool)

  /** Some task row carries the id `id`. */
  predicate HasTask(tasks: seq<Task>, id: Id)
  {
    exists i :: 0 <= i < |tasks| && tasks[i].id == id
  }

  /** The ids of the rows, in list order. */
  function Ids(tasks: seq<Task>): seq<Id>
  {
    seq(|tasks|, i requires 0 <= i < |tasks| => tasks[i].id)
  }

  /** `fetchCategories`: asks for the user's categories only when the user id is
      truthy; a success replaces the list, an error leaves it as it was. */
  function FetchCategories(v: TaskView, user: Option<Id>, resp: Response<Option<seq<Category>>>): (r: Step)
    ensures r.call.Some? <==> Truthy(user)
    ensures r.call.Some? ==> r.call.value == SelectCategories(user.value)
    ensures r.call.None? || resp.Err? ==> r.view == v
    ensures r.view.tasks == v.tasks && r.view.form == v.form
    ensures r.call.Some? && resp.Ok? ==> r.view.categories == RowsOf(resp.value)
  {
    if !Truthy(user) then Step(v, None)
    else
      var categories := match resp
        case Ok(data) => RowsOf(data)
        case Err => v.categories;
      Step(v.(categories := categories), Some(SelectCategories(user.value)))
  }

  /** `fetchTasks`: the same guard and outcome rule for the task list. */
  function FetchTasks(v: TaskView, user: Option<Id>, resp: Response<Option<seq<Task>>>): (r: Step)
    ensures r.call.Some? <==> Truthy(user)
    ensures r.call.Some? ==> r.call.value == SelectTasks(user.value)
    ensures r.call.None? || resp.Err? ==> r.view == v
    ensures r.view.categories == v.categories && r.view.form == v.form
    ensures r.call.Some? && resp.Ok? ==> r.view.tasks == RowsOf(resp.value)
  {
    if !Truthy(user) then Step(v, None)
    else
      var tasks := match resp
        case Ok(data) => RowsOf(data)
        case Err => v.tasks;
      Step(v.(tasks := tasks), Some(SelectTasks(user.value)))
  }

  /** `addTask`: a title that is blank once trimmed sends nothing and changes nothing.
      Otherwise the form is inserted as typed (the title is not trimmed; an empty
      category choice becomes `null`; the row is owned by `user`), a success appends
      the returned row at the end, an error keeps the list, and the form is reset
      in both cases. */
  function AddTask(v: TaskView, user: Option<Id>, today: string, resp: Response<Task>): (r: Step)
    ensures r.call.Some? <==> !IsBlank(v.form.titulo)
    ensures r.call.None? ==> r.view == v
    ensures r.call.Some? ==>
      && r.call.value.InsertTask?
      && r.call.value.row.titulo == v.form.titulo
      && r.call.value.row.descripcion == v.form.descripcion
      && r.call.value.row.fecha == v.form.fecha
      && r.call.value.row.estado == v.form.estado
      && (r.call.value.row.categoriaId == None <==> v.form.categoriaId == "")
      && (v.form.categoriaId != "" ==> r.call.value.row.categoriaId == Some(v.form.categoriaId))
      && r.call.value.row.userId == user
    ensures r.call.Some? ==> r.view.form == BlankForm(today) && r.view.categories == v.categories
    ensures r.call.Some? && resp.Ok? ==> r.view.tasks == v.tasks + [resp.value]
    ensures resp.Err? ==> r.view.tasks == v.tasks
  {
    if Trim(v.form.titulo) == "" then Step(v, None)
    else
      var f := v.form;
      var row := NewTask(f.titulo, f.descripcion, f.fecha, f.estado, OrNull(Some(f.categoriaId)), user);
      var tasks := match resp
        case Ok(data) => v.tasks + [data]
        case Err => v.tasks;
      Step(TaskView(tasks, v.categories, BlankForm(today)), Some(InsertTask(row)))
  }

  /** The form is reset after every add that got past the guard, so pressing "add"
      again at once sends nothing, whatever the first answer was. */
  lemma SecondAddSendsNothing(v: TaskView, user: Option<Id>, today: string, resp: Response<Task>, resp2: Response<Task>)
    requires !IsBlank(v.form.titulo)
    ensures var w := AddTask(v, user, today, resp).view;
      AddTask(w, user, today, resp2) == Step(w, None)
  {
  }

  /** The columns `saveTask` writes for a task: all editable fields, with a falsy
      category collapsed to `null`. */
  function FieldsOf(t: Task): (f: TaskFields)
    ensures f.titulo == t.titulo && f.descripcion == t.descripcion
    ensures f.fecha == t.fecha && f.estado == t.estado
    ensures Truthy(t.categoriaId) ==> f.categoriaId == t.categoriaId
    ensures !Truthy(t.categoriaId) ==> f.categoriaId == None
  {
    TaskFields(t.titulo, t.descripcion, t.fecha, t.estado, OrNull(t.categoriaId))
  }

  /** `saveTask`: an id with no row sends nothing. Otherwise the first row with that
      id is written back as it stands locally (its title is not re-checked); a success
      replaces every row with that id by the returned row, keeping the length and
      every other row; an error changes nothing. */
  function SaveTask(v: TaskView, id: Id, resp: Response<Task>): (r: Step)
    ensures r.call.Some? <==> HasTask(v.tasks, id)
    ensures r.call.None? || resp.Err? ==> r.view == v
    ensures r.call.Some? ==> exists k :: (
      && 0 <= k < |v.tasks| && v.tasks[k].id == id
      && (forall j :: 0 <= j < k ==> v.tasks[j].id != id)
      && r.call.value == UpdateTask(id, FieldsOf(v.tasks[k])))
    ensures r.view.categories == v.categories && r.view.form == v.form
    ensures |r.view.tasks| == |v.tasks|
    ensures forall i :: 0 <= i < |v.tasks| && v.tasks[i].id != id ==> r.view.tasks[i] == v.tasks[i]
    ensures r.call.Some? && resp.Ok? ==> forall i :: 0 <= i < |v.tasks| && v.tasks[i].id == id ==> r.view.tasks[i] == resp.value
  {
    match Find(v.tasks, (t: Task) => t.id == id)
    case None => Step(v, None)
    case Some(t) =>
      var tasks := match resp
        case Ok(data) => MapWhere(v.tasks, (t: Task) => t.id == id, _ => data)
        case Err => v.tasks;
      Step(v.(tasks := tasks), Some(UpdateTask(id, FieldsOf(t))))
  }

  /** `deleteTask`: always asks the backend to delete; a success removes exactly the
      rows with that id (the survivors keep their order, see `DeleteKeepsOrder`), an
      error changes nothing. */
  function DeleteTask(v: TaskView, id: Id, resp: Response<()>): (r: Step)
    ensures r.call == Some(Call.DeleteTask(id))
    ensures resp.Err? ==> r.view == v
    ensures r.view.categories == v.categories && r.view.form == v.form
    ensures resp.Ok? ==> forall t :: t in r.view.tasks <==> t in v.tasks && t.id != id
    ensures resp.Ok? ==> forall t: Task :: t.id != id ==> multiset(r.view.tasks)[t] == multiset(v.tasks)[t]
  {
    var tasks := match resp
      case Ok(_) => Filter(v.tasks, (t: Task) => t.id != id)
      case Err => v.tasks;
    Step(v.(tasks := tasks), Some(Call.DeleteTask(id)))
  }

  /** `{ ...t, [field]: value }` for the fields a card edits: only the named field
      takes the new value. */
  function Apply(t: Task, e: Edit): (r: Task)
    ensures r.id == t.id && r.userId == t.userId
    ensures r.titulo == (if e.SetTitulo? then e.text else t.titulo)
    ensures r.descripcion == (if e.SetDescripcion? then e.text else t.descripcion)
    ensures r.fecha == (if e.SetFecha? then e.text else t.fecha)
    ensures r.categoriaId == (if e.SetCategoria? then Some(e.text) else t.categoriaId)
    ensures r.estado == (if e.SetEstado? then e.flag else t.estado)
  {
    match e
    case SetTitulo(s) => t.(titulo := s)
    case SetDescripcion(s) => t.(descripcion := s)
    case SetFecha(s) => t.(fecha := s)
    case SetCategoria(s) => t.(categoriaId := Some(s))
    case SetEstado(b) => t.(estado := b)
  }

  /** `handleTaskChange`: a purely local edit of one field of the rows with that id;
      the length, the other rows, the categories and the form stay as they were. */
  function HandleTaskChange(v: TaskView, id: Id, e: Edit): (r: TaskView)
    ensures r.categories == v.categories && r.form == v.form
    ensures |r.tasks| == |v.tasks| && Ids(r.tasks) == Ids(v.tasks)
    ensures forall i :: 0 <= i < |v.tasks| && v.tasks[i].id != id ==> r.tasks[i] == v.tasks[i]
    ensures forall i :: 0 <= i < |v.tasks| && v.tasks[i].id == id ==> r.tasks[i] == Apply(v.tasks[i], e)
  {
    v.(tasks := MapWhere(v.tasks, (t: Task) => t.id == id, (t: Task) => Apply(t, e)))
  }

  /** A successful add followed by a successful delete of the returned row's (fresh)
      id gives the original list back. */
  lemma AddThenDelete(v: TaskView, user: Option<Id>, today: string, row: Task)
    requires !IsBlank(v.form.titulo) && !HasTask(v.tasks, row.id)
    ensures DeleteTask(AddTask(v, user, today, Ok(row)).view, row.id, Ok(())).view.tasks == v.tasks
  {
    var keep := (t: Task) => t.id != row.id;
    FilterAppend(v.tasks, [row], keep);
    FilterAll(v.tasks, keep);
  }

  /** Deleting the same id twice is deleting it once. */
  lemma DeleteIdempotent(v: TaskView, id: Id)
    ensures DeleteTask(DeleteTask(v, id, Ok(())).view, id, Ok(())) == DeleteTask(v, id, Ok(()))
  {
    FilterIdempotent(v.tasks, (t: Task) => t.id != id);
  }

  /** Deletion keeps the survivors in their relative order: deleting from a
      concatenation is concatenating the deletions. */
  lemma DeleteKeepsOrder(v: TaskView, a: seq<Task>, b: seq<Task>, id: Id)
    requires v.tasks == a + b
    ensures DeleteTask(v, id, Ok(())).view.tasks == DeleteTask(v.(tasks := a), id, Ok(())).view.tasks + DeleteTask(v.(tasks := b), id, Ok(())).view.tasks
  {
    FilterAppend(a, b, (t: Task) => t.id != id);
  }

  /** When the backend returns a row with the saved id, the list keeps its ids in order. */
  lemma SaveKeepsIds(v: TaskView, id: Id, row: Task)
    requires row.id == id
    ensures Ids(SaveTask(v, id, Ok(row)).view.tasks) == Ids(v.tasks)
  {
    var w := SaveTask(v, id, Ok(row)).view;
    assert forall i :: 0 <= i < |v.tasks| ==> w.tasks[i].id == v.tasks[i].id;
  }

  /** Saving again with the same answer changes nothing further. */
  lemma {:induction false} SaveIdempotent(v: TaskView, id: Id, row: Task)
    requires row.id == id
    ensures var w := SaveTask(v, id, Ok(row)).view; SaveTask(w, id, Ok(row)).view == w
  {
    var w := SaveTask(v, id, Ok(row)).view;
    SaveOkRows(v, id, row);
    SaveOkRows(w, id, row);
    SavedTwice(v, w, SaveTask(w, id, Ok(row)).view, id, row);
  }

  /** `w` is `v` with every row carrying `id` replaced by `row`, and nothing else changed. */
  ghost predicate SavedAs(v: TaskView, w: TaskView, id: Id, row: Task)
  {
    && w.categories == v.categories && w.form == v.form
    && |w.tasks| == |v.tasks|
    && forall i :: 0 <= i < |v.tasks| ==> w.tasks[i] == if v.tasks[i].id == id then row else v.tasks[i]
  }

  /** After a successful save whose answer keeps the id, each row is the answer if it
      carries the id and is untouched otherwise (a view-level restatement of `SaveTask`
      that the idempotence proof uses). */
  lemma SaveOkRows(v: TaskView, id: Id, row: Task)
    requires row.id == id
    ensures SavedAs(v, SaveTask(v, id, Ok(row)).view, id, row)
  {
  }

  /** Replacing the rows that carry `id` by a row with that id a second time changes nothing. */
  lemma SavedTwice(v: TaskView, w: TaskView, w2: TaskView, id: Id, row: Task)
    requires row.id == id && SavedAs(v, w, id, row) && SavedAs(w, w2, id, row)
    ensures w2 == w
  {
    assert w2.tasks == w.tasks;
  }

  /** Two edits of the same field of the same rows: the second wins. */
  lemma {:induction false} ChangeLastWins(v: TaskView, id: Id, e1: Edit, e2: Edit)
    requires e1.SetTitulo? == e2.SetTitulo? && e1.SetDescripcion? == e2.SetDescripcion?
    requires e1.SetFecha? == e2.SetFecha? && e1.SetCategoria? == e2.SetCategoria?
    ensures HandleTaskChange(HandleTaskChange(v, id, e1), id, e2) == HandleTaskChange(v, id, e2)
  {
    var a := HandleTaskChange(HandleTaskChange(v, id, e1), id, e2);
    var b := HandleTaskChange(v, id, e2);
    forall i | 0 <= i < |v.tasks|
      ensures a.tasks[i] == b.tasks[i]
    {
      if v.tasks[i].id == id {
        assert HandleTaskChange(v, id, e1).tasks[i].id == id;
      }
    }
  }

  /** A save right after an edit writes the edited value (for the first row with that id). */
  lemma {:induction false} SaveSendsEdit(v: TaskView, id: Id, e: Edit, resp: Response<Task>)
    requires HasTask(v.tasks, id)
    ensures var s := SaveTask(HandleTaskChange(v, id, e), id, resp);
      && s.call.Some?
      && (e.SetTitulo? ==> s.call.value.fields.titulo == e.text)
      && (e.SetDescripcion? ==> s.call.value.fields.descripcion == e.text)
      && (e.SetFecha? ==> s.call.value.fields.fecha == e.text)
      && (e.SetEstado? ==> s.call.value.fields.estado == e.flag)
      && (e.SetCategoria? ==> s.call.value.fields.categoriaId == OrNull(Some(e.text)))
  {
    var w := HandleTaskChange(v, id, e);
    var k :| 0 <= k < |v.tasks| && v.tasks[k].id == id;
    assert w.tasks[k].id == id;
    var s := SaveTask(w, id, resp);
    var j :| 0 <= j < |w.tasks| && w.tasks[j].id == id
      && (forall m :: 0 <= m < j ==> w.tasks[m].id != id)
      && s.call.value == UpdateTask(id, FieldsOf(w.tasks[j]));
    assert w.tasks[j] == Apply(v.tasks[j], e);
    FieldsOfApply(v.tasks[j], e);
  }

  /** The fields a save sends for an edited row carry the edit. */
  lemma FieldsOfApply(t: Task, e: Edit)
    ensures var f := FieldsOf(Apply(t, e));
      && (e.SetTitulo? ==> f.titulo == e.text)
      && (e.SetDescripcion? ==> f.descripcion == e.text)
      && (e.SetFecha? ==> f.fecha == e.text)
      && (e.SetEstado? ==> f.estado == e.flag)
      && (e.SetCategoria? ==> f.categoriaId == OrNull(Some(e.text)))
  {
  }

  /** A successful refetch discards unsaved local edits: the list becomes the fetched
      rows whatever was edited before. */
  lemma RefetchDropsLocalEdits(v: TaskView, id: Id, e: Edit, user: Option<Id>, rows: seq<Task>)
    requires Truthy(user)
    ensures FetchTasks(HandleTaskChange(v, id, e), user, Ok(Some(rows))).view.tasks
         == FetchTasks(v, user, Ok(Some(rows))).view.tasks == rows
  {
  }

  /** What the task view renders for a session (TaskManager.jsx:178-179). */
  datatype Screen = Loading | Unauthorized | Board

  /** The board is shown exactly for a signed-in session; before the provider has
      answered the view shows a loading message, and without a user a refusal. */
  function ScreenFor(session: Session): (s: Screen)
    ensures s == Board <==> session.Present?
    ensures s == Loading <==> session.Unresolved?
    ensures s == Unauthorized <==> session.Absent?
  {
    if session.Unresolved? then Loading
    else if session.Absent? then Unauthorized
    else Board
  }

  /** Input that reaches a card. The "Editar" button exists only outside edit mode,
      "Guardar" only inside it, and the fields are disabled outside it. */
  datatype CardEvent = ClickEdit | ClickSave | ClickDelete | Input(edit: Edit)

  /** What a card hands to the view's reducers. */
  datatype CardMsg = OnSave(id: Id) | OnDelete(id: Id) | OnChange(id: Id, edit: Edit)

  /** A card's edit flag after an event, and the message it emitted. */
  datatype CardStep = CardStep(editing: bool, msg: Option<CardMsg>)

  /** `TaskCard`: a card only ever speaks about its own task; a card in edit mode
      forwards what is typed as an edit of its task; a disabled card emits no
      edits and no saves; a button that is not shown does nothing; saving leaves
      edit mode at once, without waiting for (or looking at) the outcome of the
      save; deleting leaves the edit flag alone. */
  function Card(task: Task, editing: bool, ev: CardEvent): (r: CardStep)
    ensures r.msg.Some? ==> r.msg.value.id == task.id
    ensures !editing ==> r.msg.None? || r.msg.value.OnDelete?
    ensures r.msg.Some? && r.msg.value.OnSave? ==> !r.editing
    ensures editing && ev.ClickSave? ==> r == CardStep(false, Some(OnSave(task.id)))
    ensures !editing && ev.ClickEdit? ==> r == CardStep(true, None)
    ensures ev.ClickDelete? ==> r == CardStep(editing, Some(OnDelete(task.id)))
    ensures ev.Input? ==> r.editing == editing && (editing <==> r.msg.Some?)
    ensures ev.Input? && editing ==> r == CardStep(true, Some(OnChange(task.id, ev.edit)))
    ensures editing && ev.ClickEdit? ==> r == CardStep(editing, None)
    ensures !editing && ev.ClickSave? ==> r == CardStep(editing, None)
  {
    match ev
    case ClickEdit => if editing then CardStep(editing, None) else CardStep(true, None)
    case ClickSave => if editing then CardStep(false, Some(OnSave(task.id))) else CardStep(editing, None)
    case ClickDelete => CardStep(editing, Some(OnDelete(task.id)))
    case Input(e) => if editing then CardStep(editing, Some(OnChange(task.id, e))) else CardStep(editing, None)
  }
}
